=== FILE: README.md ===
# Syncthing status plugin for Obsidian — a verified model

The plugin (`main.js`) polls a Syncthing daemon over its REST API and shows the
sync state of one folder in Obsidian's status bar. It can also force a rescan,
test the connection and delete Syncthing's conflict copies from the vault. This
project models the decision logic under that glue and proves what the code
promises. Every network call, every host API call and every timer is replaced by
an input value or by bookkeeping:

- `js.dfy` (`Js`) holds the part of JavaScript's semantics that the decisions
  depend on: the values `JSON.parse` yields, reading a property (which throws on
  `null`/`undefined`), the `<` operator (Abstract Relational Comparison), string
  conversion in template literals, truthiness and `btoa`. Host algorithms whose
  internals are outside the model sit in one `Runtime` record and are passed in:
  the clean-up chain plus `JSON.parse`, Base64 encoding, the formatting of
  non-integral numbers, and `StringToNumber`.
- `config.dfy` (`Config`) holds the settings record with its defaults and the
  rule the settings tab applies to the poll-interval field.
- `auth.dfy` (`Auth`) holds the header choice that the code writes out three
  times: an API key wins, then Basic credentials, then no header.
- `decoder.dfy` (`Decoder`) holds `safeParseResponse`, the lenient body decoder.
- `client.dfy` (`Client`) holds the REST endpoints, the ping probe, and the
  outcomes of `forceSync` and `testConnection` as functions of their inputs.
- `status.dfy` (`Status`) holds the four statuses, their status-bar texts, and
  one run of `checkSyncStatus` as the pure function `CheckCycle`.
- `timers.dfy` (`Timers`) holds the handle bookkeeping of `setInterval`,
  `clearInterval` and `setTimeout`.
- `plugin.dfy` (`Plugin`) holds the `SyncthingPlugin` and `SyncthingSettingTab`
  classes. Their methods update `syncStatus`, `intervalId` and the status-bar
  attributes step by step, as the source does. Each one's end state is stated
  in terms of the `Status`, `Client` and `Config` functions and the timer
  bookkeeping.
- `conflicts.dfy` (`Conflicts`) holds the conflict-file filter and the delete
  loop with its success counter.

Every awaited call is run to completion. The settled outcome of each `fetch`
(a network error, or a response with status, status text and body read) is an
argument. So are the vault listing and which removals succeed. `startPolling`
does not await the first check it starts. So the check is split at its first
`await`: `BeginCheck` is the part that runs before `startPolling` returns, and
`FinishCheck` is the rest, which runs when the requests settle.

**Which folder-status bodies give "(assumed)".** An unparsable, empty or
unreadable folder-status body does not reach the "(assumed)" branch.
`safeParseResponse` turns such a body into an object with `success: true`
(`main.js:158-167`). Reading `inSyncFiles` from that object gives `undefined`,
so `<` is false and the tooltip is "All files in sync". The "(assumed)" branch
(`main.js:305-309`) is taken exactly when something inside its `try` throws.
That happens when the body parses to `null`, because reading `data.inSyncFiles`
on `null` throws a TypeError. It also happens when a count is an object with its
own `toString` field. Nothing decoded from JSON can be called, so `<` cannot
convert such an object to a primitive and throws a TypeError.
`Status.UndecodableBodyMeansSynced` and `Status.AssumedExactlyWhenDecisionThrows`
prove these facts.

## Model

| member | source | states |
|---|---|---|
| Js.GetProperty | main.js:296 | `v.key` throws exactly when `v` is null or undefined; on an object it gives the field or undefined; on any other value it gives undefined |
| Js.Btoa | main.js:191 | `btoa` succeeds exactly on Latin-1 strings, giving their Base64 text, and otherwise throws the range error |
| Js.DecimalRoundTrip | main.js:299 | the decimal text a count is shown as consists of digits only, and reading it back gives the count |
| Js.ToJsString | main.js:299 | converting a value to a string in a template literal (here and at line 208) throws exactly when the value, or an element of an array at any depth, is an object with its own `toString` field; the error is V8's "Cannot convert object to primitive value" |
| Js.JoinFrom | main.js:299 | joining an array's elements from an index on throws exactly when one of those elements cannot be converted |
| Js.ToPrimitive | main.js:296 | `ToPrimitive` leaves primitives as they are, gives "[object Object]" for a convertible object and the string `ToJsString` gives for a convertible array, and throws exactly on the values `ToJsString` throws on |
| Js.LessThan | main.js:296 | `<` throws exactly when one of its operands cannot be converted to a primitive, and then with the conversion's TypeError |
| Js.UndefinedIsNeverLess | main.js:296 | a missing (undefined) operand makes `<` false on either side, unless the other operand cannot be converted, in which case `<` throws |
| Js.NumbersCompareByValue | main.js:296 | on two numbers `<` never throws and is the order of the numbers |
| Config.PollIntervalInput | main.js:539-547 | editing the field changes only `pollInterval`; it changes only to the parsed integer, and only when that integer is at least 5; anything else leaves the settings as they were |
| Config.PollIntervalFloorKept | main.js:541-546 | after any series of edits an interval of at least 5 seconds stays at least 5 seconds, and nothing but the interval changes |
| Config.LastAcceptedWins | main.js:541-546 | after a series of edits the interval in force is the value of the last accepted edit |
| Config.NoAcceptedKeepsInterval | main.js:541-546 | a series of edits none of which is accepted leaves the settings unchanged |
| Auth.SchemeOf | main.js:185-195 | the API key is chosen exactly when it is non-empty; Basic exactly when there is no key and both username and password are non-empty |
| Auth.AuthHeaders | main.js:185-195 | the headers built before each request (the same block is at lines 240-250 and 340-348) hold at most one header; `X-API-Key` is present only with a non-empty key, and then it is the only header; `Authorization` is present only without a key; building them throws only for Basic credentials that `btoa` rejects |
| Auth.ApiKeyTakesPriority | main.js:186-188 | a non-empty API key gives exactly `{X-API-Key: key}` and never `Authorization`, whatever the username and password |
| Auth.BasicWhenNoApiKey | main.js:189-192 | with no key and both credentials present, the headers are exactly `{Authorization: "Basic " + base64(user + ":" + pass)}`, or `btoa`'s error |
| Auth.NoCredentialsNoHeader | main.js:193-195 | with no key and a missing username or password, no header is sent |
| Decoder.SafeParseResponse | main.js:128-169 | the decoder throws exactly on a status outside 200-299, with "HTTP error! status: ..."; an empty or unreadable body gives `{success: true}`; an unparsable one gives `{text: body, success: true}`; otherwise it gives the parsed value |
| Decoder.FailedStatusIgnoresBody | main.js:131-133 | on a failed status the body is never consulted: the outcome is the same for every body |
| Decoder.SuccessNeverThrows | main.js:135-168 | on a successful status the decoder always returns, giving one of the two `success: true` objects or the parsed body |
| Client.PingFailure | main.js:254-275 | the ping ends the cycle exactly when it did not get a successful status; a network error passes its message on; a failed status gives "Cannot connect to Syncthing: HTTP <status> <text>" |
| Client.ForceSyncResult | main.js:324-381 | the rescan is skipped exactly when the folder id is empty; it is initiated exactly when the headers build and the POST to `/rest/db/scan?folder=<id>` gets a successful status; otherwise it fails with the network message, the HTTP error message or `btoa`'s error, and says which requests went out |
| Client.TestConnection | main.js:171-220 | `testConnection` returns true exactly when a URL is set, the headers build, the version request succeeds, the decoded body is not null and a truthy `version` can be converted to a string; with no URL it sends nothing and reports the missing URL; once the headers build it sends exactly one GET of `/rest/system/version` with them, and if they do not build it sends nothing; every other failure gives "Connection error: " followed by the message of what threw (`btoa`, the network, the HTTP status, reading `version` from null, or the conversion); when connected the notice includes the version if it is truthy |
| Client.NullVersionBodyFails | main.js:205-218 | a version body that parses to null gives false and "Connection error: Cannot read properties of null (reading 'version')" |
| Client.UnconvertibleVersionFails | main.js:207-218 | a `version` that is an object with its own `toString` field gives false and "Connection error: Cannot convert object to primitive value" |
| Status.StatusText | main.js:386-399 | every status-bar text starts with "Syncthing: " |
| Status.StatusTextInjective | main.js:386-399 | distinct statuses are shown with distinct status-bar texts |
| Status.ProgressTooltip | main.js:299 | the progress tooltip starts with "Syncing: " and throws exactly when a count cannot be converted to a string |
| Status.Verdict | main.js:291-309 | on a successful folder status the result is syncing or synced; the "(assumed)" tooltip is given exactly when something inside the `try` throws: decoding, reading a count of null or undefined, or converting a count for `<`; otherwise `inSyncFiles < globalFiles` (JavaScript `<`) chooses "Syncing: X/Y files" or "All files in sync" |
| Status.Failure | main.js:314-318 | the catch-all of a check gives status error with a tooltip that starts with "Error: " |
| Status.FolderStep | main.js:279-313 | the folder-status step throws exactly when the request did not get a successful status; a network error passes its message on; a failed status gives "Folder status error: HTTP <status> <text>"; a successful one gives the verdict on the decoded body |
| Status.FolderDisplay | main.js:279-313 | what the folder-status step throws is shown as "Error: Folder error: ..."; the status is error exactly when that request did not get a successful status, and otherwise it is the verdict |
| Status.CheckCycle | main.js:222-322 | a status check never leaves the status idle; the status is error exactly when the tooltip starts with "Error: "; at most two requests are sent; an empty folder id gives error, "Error: Folder ID not set" and no request |
| Status.DecisionDisplay | main.js:252-309 | a cycle that reaches the folder decision displays the verdict on the decoded folder-status body |
| Status.PingFailureStopsCycle | main.js:254-275 | a failed ping gives error with "Error: Connection failed: ..."; only the ping is sent, and the folder outcome makes no difference |
| Status.FolderFailureIsError | main.js:279-313 | a failed folder-status request gives error with "Error: Folder error: ...", after both requests were sent |
| Status.CountsDecide | main.js:296-304 | with numeric counts, fewer files in sync than in the global model gives syncing with "Syncing: X/Y files"; any other case gives synced with "All files in sync" |
| Status.MissingCountMeansSynced | main.js:296-309 | a decoded object that lacks either count gives synced with "All files in sync", unless the other count cannot be converted, in which case `<` throws and the tooltip is "All files in sync (assumed)" |
| Status.UndecodableBodyMeansSynced | main.js:291-304 | an empty, unreadable or unparsable folder-status body gives synced with "All files in sync", neither error nor "(assumed)" |
| Status.AssumedExactlyWhenDecisionThrows | main.js:291-309 | the "(assumed)" tooltip appears exactly when the cycle reaches the folder decision and the body parses to null (undefined is possible only for the abstract parser), or to a value with a count that cannot be converted |
| Status.UnconvertibleCountIsAssumed | main.js:291-309 | the body `{"inSyncFiles": {"toString": 1}, "globalFiles": 5}` gives synced with "All files in sync (assumed)" |
| Status.ExampleCounts | main.js:296-303 | 5 of 5 files in sync gives synced; 2 of 5 gives "Syncing: 2/5 files" |
| Status.ProgressExample | main.js:299 | counts 2 and 5 are shown as "Syncing: 2/5 files" |
| Status.ConnectionTestUsesCheckHeaders | main.js:185-258 | the connection test sends the same headers as the status check's ping, to the version endpoint instead of the ping endpoint |
| Conflicts.SearchFrom | main.js:422 | the left-to-right search finds a match exactly when the pattern matches at some position from the start index on |
| Conflicts.ConflictTest | main.js:422-423 | `conflictPattern.test(path)` holds exactly when the path contains ".sync-conflict-" followed by a digit or a hyphen |
| Conflicts.ConflictFiles | main.js:423 | the filter keeps exactly the listed paths that match, and never more paths than listed |
| Conflicts.ConflictFilesKeepOrder | main.js:423 | the filter keeps list order: filtering a concatenation is the concatenation of the filtered parts |
| Conflicts.Succeeded | main.js:433-442 | the number of successful removals is at most the number attempted |
| Conflicts.SucceededBounds | main.js:433-442 | the success count equals the number of removals attempted exactly when every removal succeeds |
| Conflicts.CleanupReport.Notice | main.js:428-448 | the final notice starts with "Error deleting sync conflict files: " exactly when the listing failed |
| Conflicts.DeletedNoticeShowsCount | main.js:444 | different deletion counts give different notices: the notice tells how many files were deleted |
| Conflicts.DeleteSyncConflictFiles | main.js:408-450 | a failed listing reports its error and removes nothing; otherwise removal is attempted on exactly the matching paths, in list order, whether or not earlier removals failed; no match reports none found; otherwise the reported count is the number of successful removals |
| Conflicts.ExampleListing | main.js:422-423 | of `a.md`, `a.md.sync-conflict-20230101-120000` and `b.md`, only the conflict copy is picked |
| Timers.TimerTable.SetInterval | main.js:117-120 | `setInterval` hands out a fresh handle and records one recurring timer with its period |
| Timers.TimerTable.ClearInterval | main.js:98-101 | `clearInterval` deactivates that handle and nothing else; clearing an inactive handle does nothing |
| Timers.TimerTable.SetTimeout | main.js:65-68 | `setTimeout` hands out a fresh handle and records the one-shot task and its delay |
| Plugin.SyncthingPlugin.constructor | main.js:5-88 | a new plugin holds the defaults when nothing was saved and the saved record otherwise, status idle (shown in the bar), no interval handle, no request sent, no recurring timer, and one `startPolling` scheduled 2000 ms later |
| Plugin.SyncthingPlugin.UpdateStatusBarItem | main.js:383-406 | the bar's `data-status` and text show the current status; the tooltip is untouched |
| Plugin.SyncthingPlugin.ReportMissingFolder | main.js:226-232 | with no folder id the plugin shows error with "Error: Folder ID not set"; settings, timer handle and requests are untouched |
| Plugin.SyncthingPlugin.BeginCheck | main.js:234-250 | the part of a check before its first `await` turns the status to syncing and builds the headers; if `btoa` throws, the check ends there in error with "Error: " and the message; nothing is sent |
| Plugin.SyncthingPlugin.FinishCheck | main.js:252-321 | the rest of a check, once the headers are built, ends in exactly the status and tooltip `CheckCycle` gives and sends the requests it lists |
| Plugin.SyncthingPlugin.CheckSyncStatus | main.js:222-322 | a whole check, as a timer tick runs it, ends in exactly the status and tooltip `CheckCycle` gives and sends its requests; settings and interval handle stay as they were |
| Plugin.SyncthingPlugin.ClearPollTimer | main.js:98-101 | clearing the stored handle leaves no recurring timer and hands out no new handle |
| Plugin.SyncthingPlugin.StartPolling | main.js:95-125 | the old interval is cleared first; an empty folder id then gives error, "Error: Folder ID not set" and no recurring timer; otherwise exactly one fresh recurring timer with period `pollInterval * 1000` is active, its handle is stored, and the first check has run up to its first `await` |
| Plugin.SyncthingPlugin.OnUnload | main.js:76-81 | unloading leaves no recurring timer and schedules nothing |
| Plugin.SyncthingPlugin.ForceSync | main.js:324-381 | the outcome follows `ForceSyncResult`: skipped changes nothing; initiated leaves status syncing and schedules exactly one check 2000 ms later; failed gives error with "Error: " and the message; no recurring timer is created |
| Plugin.AtMostOneInterval | main.js:95-125 | in every valid plugin state at most one recurring timer is active |
| Plugin.SyncthingSettingTab.OnPollIntervalChange | main.js:539-547 | the field's handler changes the settings exactly as `PollIntervalInput` says, and nothing else |
| Plugin.SyncthingSettingTab.OnRestartSync | main.js:560-568 | "Restart Sync" leaves at most one recurring timer: none with an empty folder id (status error, "Error: Folder ID not set"), otherwise exactly the fresh one, with the first check begun (syncing, or `btoa`'s error); settings, requests and one-shot timers are unchanged |
| Plugin.StartThenSettle | main.js:117-124 | starting to poll and then letting the first check settle ends where one whole check ends; the only recurring timer is the fresh one (the next handle), with period `pollInterval * 1000` |
| Plugin.RestartTwice | main.js:98-120 | two restarts in a row leave exactly one recurring timer, the one the second restart created |
| Plugin.StartThenUnload | main.js:76-81 | starting and then unloading leaves no recurring timer, and unloading a second time keeps it so |
| Plugin.LoadThenUnload | main.js:65-81 | unloading before the two-second start-up timer fires leaves no recurring timer but keeps that timer scheduled |
| Plugin.StartUpTimerFiresAfterUnload | main.js:65-125 | when that surviving start-up timer fires, `startPolling` creates a recurring timer for a set folder id, so the unloaded plugin keeps polling |

## Left out

- HTTP transport, `fetch` and the timing of `response.text()` are not modelled. Each call is replaced by its settled outcome, given as an argument.
- The regular-expression clean-up chain and `JSON.parse` (`main.js:142-157`) are one given partial function, `Runtime.cleanAndParse`. The chain's regex rewriting is not modelled.
- Base64 encoding inside `btoa` is a given function. Only the Latin-1 check and its error are modelled.
- Timers firing, and the interleaving of overlapping asynchronous poll cycles, are not modelled. This is concurrency. Timers are handle bookkeeping, and the one-shot timers are recorded as scheduled tasks. Events that could run between `BeginCheck` and `FinishCheck` are not modelled either.
- The request log is ghost state. It records the ping when its outcome arrives, not when `fetch` is called.
- Obsidian's `Notice` popups are not modelled, except the final notices of `testConnection` and of the conflict cleanup. `forceSync`'s notices are left out. The status-bar calls are modelled only as the attributes and text they set.
- `addCommand`, `addSettingTab` and the construction of the settings form are not modelled. Neither are the handlers of the URL, key, username, password and folder-id fields, which only store the value typed.
- `saveData` is not modelled.
- `loadData` is an input: nothing, or a complete record as `saveSettings` writes it. The `Object.assign` merge of a partial record, or of one with extra or wrongly typed fields, is not represented.
- The `try`/`catch` around `onload` is not modelled. The model assumes loading settings succeeds.
- `parseInt(value, 10)` is an input, `Option<int>`, with `None` for NaN.
- The formatting of non-integral numbers and `StringToNumber` are given functions. Numbers are reals, so infinities, NaN and negative zero are not modelled. `JSON.parse` does produce some of them (`1e999` is Infinity, `-0` is negative zero), so a count of Infinity, shown by the code as "Syncing: 5/Infinity files", is outside the model.
- String comparison in `<` is by characters. JavaScript compares UTF-16 code units, which differs only for characters outside the Basic Multilingual Plane.
- Only `data.inSyncFiles`, `data.globalFiles` and `data.version` are read, and none of them is on a built-in prototype. So a property read is an own-field lookup. Converting an object looks up `toString` (and `valueOf`) on the object itself, which is modelled; getters and callable values cannot come from JSON.
- The host converts the `setInterval` delay to a signed 32-bit integer, wrapping modulo 2^32, and treats a negative delay as 0. The settings tab accepts any integer of at least 5. So an interval of 2147484 to 4294967 seconds fires at once, and from 4294968 seconds the delay is `pollInterval * 1000 - 2^32` ms (4400000 seconds fires after about 29 hours). The timer table records the delay the code passes, not the one the host uses.
- The vault listing (`adapter.list('')`) is an input list of paths. It is taken as the source gives it, with no recursion into folders.
- `Plugin.SyncthingPlugin.StartPolling` with an empty folder id clears the old interval but keeps the stale handle in `intervalId`, as the code does. Clearing it again later does nothing.

=== FILE: auth.dfy ===
/** Authentication header selection, written out identically in `testConnection`,
    `checkSyncStatus` and `forceSync`: an API key wins, Basic credentials come
    second, and otherwise the request goes out unauthenticated. */
module Auth {
  import opened Js
  import opened Config

  /** Request headers: header name to value. */
  type Headers = map<string, string>

  /** The scheme the settings select. */
  datatype Scheme = ApiKey(key: string) | Basic(username: string, password: string) | Anonymous

  function SchemeOf(s: Settings): (r: Scheme)
    ensures r.ApiKey? <==> s.syncthingApiKey != ""
    ensures r.Basic? <==> s.syncthingApiKey == "" && s.syncthingUsername != "" && s.syncthingPassword != ""
    ensures r.ApiKey? ==> r.key == s.syncthingApiKey
    ensures r.Basic? ==> r.username == s.syncthingUsername && r.password == s.syncthingPassword
  {
    if s.syncthingApiKey != "" then ApiKey(s.syncthingApiKey)
    else if s.syncthingUsername != "" && s.syncthingPassword != "" then Basic(s.syncthingUsername, s.syncthingPassword)
    else Anonymous
  }

  /** The text `btoa` encodes for Basic authentication. */
  function Credentials(username: string, password: string): string {
    username + ":" + password
  }

  /** The headers built for a request; `btoa` may throw on credentials outside Latin-1. */
  function AuthHeaders(s: Settings, rt: Runtime): (r: Thrown<Headers>)
    ensures r.Returned? ==> |r.value| <= 1
    ensures r.Returned? && "X-API-Key" in r.value ==> r.value == map["X-API-Key" := s.syncthingApiKey] && s.syncthingApiKey != ""
    ensures r.Returned? && "Authorization" in r.value ==> s.syncthingApiKey == ""
    ensures r.Threw? ==> SchemeOf(s).Basic? && r.message == BtoaRangeError
  {
    match SchemeOf(s)
    case ApiKey(key) => Returned(map["X-API-Key" := key])
    case Basic(username, password) =>
      (match Btoa(Credentials(username, password), rt)
       case Returned(encoded) => Returned(map["Authorization" := "Basic " + encoded])
       case Threw(message) => Threw(message))
    case Anonymous => Returned(map[])
  }

  /** A non-empty API key gives exactly the `X-API-Key` header, whatever the username and password. */
  lemma ApiKeyTakesPriority(s: Settings, rt: Runtime)
    requires s.syncthingApiKey != ""
    ensures AuthHeaders(s, rt) == Returned(map["X-API-Key" := s.syncthingApiKey])
    ensures "Authorization" !in AuthHeaders(s, rt).value
  {
  }

  /** Without an API key, a username and a password give exactly one `Authorization: Basic` header,
      unless `btoa` rejects the credentials. */
  lemma BasicWhenNoApiKey(s: Settings, rt: Runtime)
    requires s.syncthingApiKey == "" && s.syncthingUsername != "" && s.syncthingPassword != ""
    ensures var text := Credentials(s.syncthingUsername, s.syncthingPassword);
            AuthHeaders(s, rt) == if Latin1(text) then Returned(map["Authorization" := "Basic " + rt.base64(text)])
                                  else Threw(BtoaRangeError)
  {
  }

  /** Without an API key and without both a username and a password, no header is sent. */
  lemma NoCredentialsNoHeader(s: Settings, rt: Runtime)
    requires s.syncthingApiKey == "" && (s.syncthingUsername == "" || s.syncthingPassword == "")
    ensures AuthHeaders(s, rt) == Returned(map[])
  {
  }
}

=== FILE: client.dfy ===
/** The plugin's calls to the Syncthing REST API. Transport is not modelled:
    each `fetch` is replaced by the outcome it had (a network error or a
    response), and the requests the plugin would send are returned as values
    so that the model can say which calls are made. */
module Client {
  import opened Js
  import opened Config
  import opened Auth
  import opened Decoder

  datatype HttpMethod = Get | Post

  datatype Request = Request(verb: HttpMethod, url: string, headers: Headers)

  /** How a `fetch` settled: rejected with an error message, or resolved with a response. */
  datatype FetchOutcome = NetworkError(message: string) | Responded(response: Response) {
    predicate Succeeded() { Responded? && response.Ok() }
  }

  function VersionUrl(s: Settings): string { s.syncthingUrl + "/rest/system/version" }
  function PingUrl(s: Settings): string { s.syncthingUrl + "/rest/system/ping" }
  function FolderStatusUrl(s: Settings): string { s.syncthingUrl + "/rest/db/status?folder=" + s.folderId }
  function ScanUrl(s: Settings): string { s.syncthingUrl + "/rest/db/scan?folder=" + s.folderId }

  /** The error `checkSyncStatus` throws when the ping gets a failed status. */
  function CannotConnectError(r: Response): string {
    "Cannot connect to Syncthing: HTTP " + IntToDecimal(r.status) + " " + r.statusText
  }

  /** The reachability probe of `checkSyncStatus`: the message of the error it ends in, if any.
      The ping body is read and discarded, so a failure to read it changes nothing. */
  function PingFailure(ping: FetchOutcome): (m: Option<string>)
    ensures m.None? <==> ping.Succeeded()
    ensures ping.NetworkError? ==> m == Some(ping.message)
    ensures ping.Responded? && !ping.response.Ok() ==> m == Some(CannotConnectError(ping.response))
  {
    match ping
    case NetworkError(message) => Some(message)
    case Responded(r) =>
      if !r.Ok() then Some(CannotConnectError(r)) else None
  }

  /** How `forceSync` ends: skipped for a missing folder id, rescan initiated, or failed with a message. */
  datatype RescanOutcome =
    | Skipped
    | Initiated(request: Request)
    | Failed(message: string, sent: seq<Request>)

  /** `forceSync` with the outcome of its POST to the rescan endpoint. The response body is decoded and the
      result discarded; any error from that decoding is swallowed, so it does not appear here. */
  function ForceSyncResult(s: Settings, rt: Runtime, scan: FetchOutcome): (r: RescanOutcome)
    ensures r.Skipped? <==> s.folderId == ""
    ensures r.Initiated? <==> s.folderId != "" && AuthHeaders(s, rt).Returned? && scan.Succeeded()
    ensures r.Initiated? ==> r.request == Request(Post, ScanUrl(s), AuthHeaders(s, rt).value)
    ensures r.Failed? && AuthHeaders(s, rt).Returned? ==>
              r.sent == [Request(Post, ScanUrl(s), AuthHeaders(s, rt).value)]
              && r.message == (if scan.NetworkError? then scan.message else HttpErrorMessage(scan.response))
    ensures r.Failed? && AuthHeaders(s, rt).Threw? ==> r.sent == [] && r.message == AuthHeaders(s, rt).message
  {
    if s.folderId == "" then Skipped
    else
      match AuthHeaders(s, rt)
      case Threw(message) => Failed(message, [])
      case Returned(headers) =>
        var request := Request(Post, ScanUrl(s), headers);
        match scan
        case NetworkError(message) => Failed(message, [request])
        case Responded(response) =>
          if !response.Ok() then Failed(HttpErrorMessage(response), [request]) else Initiated(request)
  }

  /** What `testConnection` reports: whether it returns true, the final notice, and the requests sent. */
  datatype ConnectionReport = ConnectionReport(connected: bool, notice: string, sent: seq<Request>)

  /** `data.version` can be read and, when it is truthy, written into the notice. */
  predicate VersionReadable(data: Value) {
    !data.IsNullish() && (Truthy(GetProperty(data, "version").value) ==> Convertible(GetProperty(data, "version").value))
  }

  /** `testConnection` with the outcome of its GET of the version endpoint. It touches no plugin state. */
  function TestConnection(s: Settings, rt: Runtime, version: FetchOutcome): (r: ConnectionReport)
    ensures r.connected <==> s.syncthingUrl != "" && AuthHeaders(s, rt).Returned? && version.Succeeded()
                             && VersionReadable(SafeParseResponse(version.response, rt).value)
    ensures s.syncthingUrl == "" ==> r == ConnectionReport(false, "Error: No Syncthing URL configured", [])
    ensures s.syncthingUrl != "" && AuthHeaders(s, rt).Returned? ==>
              r.sent == [Request(Get, VersionUrl(s), AuthHeaders(s, rt).value)]
    ensures AuthHeaders(s, rt).Threw? ==> r.sent == []
    ensures s.syncthingUrl != "" && AuthHeaders(s, rt).Threw? ==>
              r.notice == "Connection error: " + AuthHeaders(s, rt).message
    ensures s.syncthingUrl != "" && AuthHeaders(s, rt).Returned? && version.NetworkError? ==>
              r.notice == "Connection error: " + version.message
    ensures s.syncthingUrl != "" && AuthHeaders(s, rt).Returned? && version.Responded? && !version.response.Ok() ==>
              r.notice == "Connection error: " + HttpErrorMessage(version.response)
    ensures s.syncthingUrl != "" && AuthHeaders(s, rt).Returned? && version.Succeeded() && !r.connected ==>
              var data := SafeParseResponse(version.response, rt).value;
              r.notice == "Connection error: " + if data.IsNullish() then GetProperty(data, "version").message else ConvertError
    ensures r.connected ==>
              var v := GetProperty(SafeParseResponse(version.response, rt).value, "version").value;
              r.notice == if Truthy(v) then "Connected to Syncthing " + ToJsString(v, rt).value else "Connected to Syncthing"
  {
    if s.syncthingUrl == "" then ConnectionReport(false, "Error: No Syncthing URL configured", [])
    else
      match AuthHeaders(s, rt)
      case Threw(message) => ConnectionReport(false, "Connection error: " + message, [])
      case Returned(headers) =>
        var request := Request(Get, VersionUrl(s), headers);
        match version
        case NetworkError(message) => ConnectionReport(false, "Connection error: " + message, [request])
        case Responded(response) =>
          match SafeParseResponse(response, rt)
          case Threw(message) => ConnectionReport(false, "Connection error: " + message, [request])
          case Returned(data) =>
            match GetProperty(data, "version")
            case Threw(message) => ConnectionReport(false, "Connection error: " + message, [request])
            case Returned(v) =>
              if !Truthy(v) then ConnectionReport(true, "Connected to Syncthing", [request])
              else
                match ToJsString(v, rt)
                case Threw(message) => ConnectionReport(false, "Connection error: " + message, [request])
                case Returned(text) => ConnectionReport(true, "Connected to Syncthing " + text, [request])
  }

  /** A version body that parses to null fails the test with the TypeError of reading `version` from null. */
  lemma NullVersionBodyFails(s: Settings, rt: Runtime, version: FetchOutcome)
    requires s.syncthingUrl != "" && AuthHeaders(s, rt).Returned? && version.Succeeded()
    requires version.response.body.Text? && version.response.body.text != ""
    requires rt.cleanAndParse(version.response.body.text) == Some(Null)
    ensures TestConnection(s, rt, version)
            == ConnectionReport(false, "Connection error: " + ReadError("null", "version"),
                                [Request(Get, VersionUrl(s), AuthHeaders(s, rt).value)])
  {
    assert SafeParseResponse(version.response, rt) == Returned(Null);
  }

  /** A truthy version that cannot be converted to a string fails the test with the conversion's TypeError. */
  lemma UnconvertibleVersionFails(s: Settings, rt: Runtime, version: FetchOutcome)
    requires s.syncthingUrl != "" && AuthHeaders(s, rt).Returned? && version.Succeeded()
    requires version.response.body.Text? && version.response.body.text != ""
    requires rt.cleanAndParse(version.response.body.text) == Some(Obj(map["version" := Obj(map["toString" := Num(1.0)])]))
    ensures TestConnection(s, rt, version)
            == ConnectionReport(false, "Connection error: " + ConvertError, [Request(Get, VersionUrl(s), AuthHeaders(s, rt).value)])
  {
  }
}

=== FILE: config.dfy ===
/** The plugin's settings record and the rule the settings tab applies to
    the poll-interval field. */
module Config {
  import opened Js

  /** Connection settings as the plugin stores them; every text field may be empty. */
  datatype Settings = Settings(
    syncthingUsername: string,
    syncthingPassword: string,
    syncthingApiKey: string,
    syncthingUrl: string,
    pollInterval: int,  // seconds
    folderId: string)

  /** The values the plugin starts from before saved data is merged in. */
  const Defaults: Settings := Settings("", "", "", "http://localhost:8384", 10, "")

  /** The smallest poll interval, in seconds, the settings tab accepts. */
  const MinPollInterval: int := 5

  /** The settings after the poll-interval field is edited; `parsed` is `parseInt(value, 10)`, `None` for NaN. */
  function PollIntervalInput(s: Settings, parsed: Option<int>): (r: Settings)
    ensures r.(pollInterval := s.pollInterval) == s
    ensures r != s ==> r.pollInterval >= MinPollInterval
    ensures parsed.Some? && parsed.value >= MinPollInterval ==> r.pollInterval == parsed.value
    ensures !(parsed.Some? && parsed.value >= MinPollInterval) ==> r == s
  {
    match parsed
    case Some(n) => if n >= MinPollInterval then s.(pollInterval := n) else s
    case None => s
  }

  /** The settings after a series of edits of the poll-interval field, in order. */
  function ApplyPollIntervalInputs(s: Settings, inputs: seq<Option<int>>): Settings
    decreases |inputs|
  {
    if inputs == [] then s
    else ApplyPollIntervalInputs(PollIntervalInput(s, inputs[0]), inputs[1..])
  }

  predicate Accepted(input: Option<int>) {
    input.Some? && input.value >= MinPollInterval
  }

  /** However the field is edited, an interval of at least five seconds stays at least five seconds,
      and nothing but the interval changes. */
  lemma {:induction false} PollIntervalFloorKept(s: Settings, inputs: seq<Option<int>>)
    requires s.pollInterval >= MinPollInterval
    ensures ApplyPollIntervalInputs(s, inputs).pollInterval >= MinPollInterval
    ensures ApplyPollIntervalInputs(s, inputs).(pollInterval := s.pollInterval) == s
    decreases |inputs|
  {
    if inputs != [] {
      PollIntervalFloorKept(PollIntervalInput(s, inputs[0]), inputs[1..]);
    }
  }

  /** The interval in force is the one the last accepted edit gave. */
  lemma {:induction false} LastAcceptedWins(s: Settings, inputs: seq<Option<int>>, k: int)
    requires 0 <= k < |inputs| && Accepted(inputs[k])
    requires forall j :: k < j < |inputs| ==> !Accepted(inputs[j])
    ensures ApplyPollIntervalInputs(s, inputs).pollInterval == inputs[k].value
    decreases |inputs|
  {
    var rest := inputs[1..];
    var s' := PollIntervalInput(s, inputs[0]);
    if k > 0 {
      assert forall j :: k - 1 < j < |rest| ==> rest[j] == inputs[j + 1];
      LastAcceptedWins(s', rest, k - 1);
    } else {
      assert forall j :: 0 <= j < |rest| ==> rest[j] == inputs[j + 1];
      NoAcceptedKeepsInterval(s', rest);
    }
  }

  /** Edits none of which is accepted leave the settings unchanged. */
  lemma {:induction false} NoAcceptedKeepsInterval(s: Settings, inputs: seq<Option<int>>)
    requires forall j :: 0 <= j < |inputs| ==> !Accepted(inputs[j])
    ensures ApplyPollIntervalInputs(s, inputs) == s
    decreases |inputs|
  {
    if inputs != [] {
      assert !Accepted(inputs[0]);
      assert forall j :: 0 <= j < |inputs| - 1 ==> inputs[1..][j] == inputs[j + 1];
      NoAcceptedKeepsInterval(s, inputs[1..]);
    }
  }
}

=== FILE: conflicts.dfy ===
/** `deleteSyncConflictFiles`: pick the vault paths that match the unanchored
    pattern `\.sync-conflict-[\d-]+` and remove each one, counting the
    removals that succeed. Listing and removal are host calls; their outcomes
    are inputs. */
module Conflicts {
  import opened Js

  const Marker: string := ".sync-conflict-"

  /** `[\d-]`: an ASCII digit or a hyphen. */
  predicate DigitOrDash(c: char) {
    '0' <= c <= '9' || c == '-'
  }

  /** The pattern matches at position `i`: the marker, then at least one digit or hyphen. */
  ghost predicate MatchesAt(path: string, i: int) {
    0 <= i && i + |Marker| < |path| && path[i..i + |Marker|] == Marker && DigitOrDash(path[i + |Marker|])
  }

  /** What `conflictPattern.test(path)` decides: the pattern matches somewhere in the path. */
  ghost predicate IsConflictPath(path: string) {
    exists i :: MatchesAt(path, i)
  }

  /** The matcher: tries every start position from `i` on, left to right. */
  function SearchFrom(path: string, i: nat): (found: bool)
    requires i <= |path|
    ensures found <==> exists j :: i <= j && MatchesAt(path, j)
    decreases |path| - i
  {
    if i + |Marker| >= |path| then false
    else if path[i..i + |Marker|] == Marker && DigitOrDash(path[i + |Marker|]) then
      assert MatchesAt(path, i);
      true
    else SearchFrom(path, i + 1)
  }

  function ConflictTest(path: string): (r: bool)
    ensures r <==> IsConflictPath(path)
  {
    SearchFrom(path, 0)
  }

  /** `files.filter(file => conflictPattern.test(file))`. */
  function ConflictFiles(files: seq<string>): (r: seq<string>)
    ensures |r| <= |files|
    ensures forall f :: f in r <==> f in files && IsConflictPath(f)
  {
    if files == [] then []
    else (if ConflictTest(files[0]) then [files[0]] else []) + ConflictFiles(files[1..])
  }

  /** The filter keeps list order: filtering a concatenation filters each part and concatenates. */
  lemma {:induction false} ConflictFilesKeepOrder(a: seq<string>, b: seq<string>)
    ensures ConflictFiles(a + b) == ConflictFiles(a) + ConflictFiles(b)
    decreases |a|
  {
    if a == [] {
      assert a + b == b;
    } else {
      assert (a + b)[1..] == a[1..] + b;
      ConflictFilesKeepOrder(a[1..], b);
    }
  }

  /** The number of paths in `paths` whose removal succeeds. */
  function Succeeded(paths: seq<string>, removes: string -> bool): (n: nat)
    ensures n <= |paths|
    decreases |paths|
  {
    if paths == [] then 0
    else Succeeded(paths[..|paths| - 1], removes) + (if removes(paths[|paths| - 1]) then 1 else 0)
  }

  /** Every attempted removal succeeds exactly when the count reaches the number attempted. */
  lemma {:induction false} SucceededBounds(paths: seq<string>, removes: string -> bool)
    ensures Succeeded(paths, removes) == |paths| <==> forall k :: 0 <= k < |paths| ==> removes(paths[k])
    decreases |paths|
  {
    if paths != [] {
      var init := paths[..|paths| - 1];
      SucceededBounds(init, removes);
      assert forall k :: 0 <= k < |init| ==> init[k] == paths[k];
    }
  }

  /** How the cleanup ends: the listing failed, nothing matched, or this many files were deleted. */
  datatype CleanupReport = ListingFailed(message: string) | NoneFound | Deleted(count: nat) {
    /** The notice shown at the end; it reads as an error exactly when the listing failed. */
    function Notice(): (n: string)
      ensures ListingFailed? <==> |n| >= 36 && n[..36] == "Error deleting sync conflict files: "
    {
      match this
      case ListingFailed(message) =>
        var n := "Error deleting sync conflict files: " + message;
        assert n[..36] == "Error deleting sync conflict files: ";
        n
      case NoneFound => "No sync conflict files found"
      case Deleted(count) =>
        var n := "Deleted " + NatToDecimal(count) + " sync conflict files";
        assert n[0] == 'D' && (|n| >= 36 ==> n[..36][0] == 'D');
        n
    }
  }

  /** The final notice tells how many files were deleted: different counts give different notices. */
  lemma DeletedNoticeShowsCount(a: nat, b: nat)
    ensures Deleted(a).Notice() == Deleted(b).Notice() ==> a == b
  {
    var prefix, suffix := "Deleted ", " sync conflict files";
    var na, nb := Deleted(a).Notice(), Deleted(b).Notice();
    if na == nb {
      assert na == prefix + NatToDecimal(a) + suffix;
      assert nb == prefix + NatToDecimal(b) + suffix;
      assert NatToDecimal(a) == na[|prefix|..|na| - |suffix|];
      assert NatToDecimal(b) == nb[|prefix|..|nb| - |suffix|];
      DecimalRoundTrip(a);
      DecimalRoundTrip(b);
    }
  }

  /** The cleanup, given the outcome of listing the vault and which removals succeed. Returns the report and
      the paths whose removal was attempted, in order. */
  method DeleteSyncConflictFiles(listing: Thrown<seq<string>>, removes: string -> bool)
    returns (report: CleanupReport, attempted: seq<string>)
    ensures listing.Threw? ==> report == ListingFailed(listing.message) && attempted == []
    ensures listing.Returned? ==> attempted == ConflictFiles(listing.value)
    ensures listing.Returned? && attempted == [] ==> report == NoneFound
    ensures listing.Returned? && attempted != [] ==> report == Deleted(Succeeded(attempted, removes))
  {
    match listing
    case Threw(message) =>
      return ListingFailed(message), [];
    case Returned(files) =>
      var conflictFiles := ConflictFiles(files);
      if |conflictFiles| == 0 {
        return NoneFound, [];
      }
      var deletedCount := 0;
      attempted := [];
      for i := 0 to |conflictFiles|
        invariant attempted == conflictFiles[..i]
        invariant deletedCount == Succeeded(attempted, removes)
      {
        var file := conflictFiles[i];
        assert (attempted + [file])[..i] == attempted;
        attempted := attempted + [file];
        if removes(file) {
          deletedCount := deletedCount + 1;
        }
      }
      assert attempted == conflictFiles;
      report := Deleted(deletedCount);
  }

  /** The example vault: only the conflict copy is picked. */
  lemma ExampleListing()
    ensures ConflictFiles(["a.md", "a.md.sync-conflict-20230101-120000", "b.md"]) == ["a.md.sync-conflict-20230101-120000"]
  {
    var files := ["a.md", "a.md.sync-conflict-20230101-120000", "b.md"];
    var prefix, suffix := "a.md", "20230101-120000";
    assert files[1] == prefix + Marker + suffix;
    assert (prefix + Marker + suffix)[4..4 + |Marker|] == Marker;
    assert MatchesAt(files[1], 4);
    assert !ConflictTest(files[0]);
    assert !ConflictTest(files[2]);
    assert files[1..][1..] == ["b.md"];
  }
}

=== FILE: decoder.dfy ===
/** `safeParseResponse`: the lenient decoder every response body goes through.
    It throws only on a status outside 200-299; an empty or unreadable body and
    a body that does not parse all degrade to an object with `success: true`. */
module Decoder {
  import opened Js

  /** What `await response.text()` gives: the body text, or a rejection with its message. */
  datatype BodyRead = Text(text: string) | ReadFailed(message: string)

  datatype Response = Response(status: int, statusText: string, body: BodyRead) {
    /** `response.ok`. */
    predicate Ok() { 200 <= status <= 299 }
  }

  /** The message `safeParseResponse` (and `forceSync`) throw on a failed status. */
  function HttpErrorMessage(r: Response): string {
    "HTTP error! status: " + IntToDecimal(r.status) + " " + r.statusText
  }

  /** `{success: true}`: no content, assumed fine. */
  const NoContent: Value := Obj(map["success" := Bool(true)])

  /** `{text: body, success: true}`: a body that did not parse, kept as text. */
  function Unparsed(body: string): Value {
    Obj(map["text" := Str(body), "success" := Bool(true)])
  }

  function SafeParseResponse(r: Response, rt: Runtime): (result: Thrown<Value>)
    ensures result.Threw? <==> !r.Ok()
    ensures result.Threw? ==> result.message == HttpErrorMessage(r)
    ensures r.Ok() && (r.body == Text("") || r.body.ReadFailed?) ==> result.value == NoContent
    ensures r.Ok() && r.body.Text? && r.body.text != "" && rt.cleanAndParse(r.body.text).None?
            ==> result.value == Unparsed(r.body.text)
    ensures r.Ok() && r.body.Text? && r.body.text != "" && rt.cleanAndParse(r.body.text).Some?
            ==> result.value == rt.cleanAndParse(r.body.text).value
  {
    if !r.Ok() then Threw(HttpErrorMessage(r))
    else
      match r.body
      case ReadFailed(_) => Returned(NoContent)
      case Text(text) =>
        if text == "" then Returned(NoContent)
        else
          match rt.cleanAndParse(text)
          case Some(v) => Returned(v)
          case None => Returned(Unparsed(text))
  }

  /** On a failed status the body is never consulted: the outcome is the same whatever the body. */
  lemma FailedStatusIgnoresBody(r: Response, other: BodyRead, rt: Runtime)
    requires !r.Ok()
    ensures SafeParseResponse(r, rt) == SafeParseResponse(r.(body := other), rt)
  {
  }

  /** On a successful status the decoder returns, and what it returns is the parsed body or
      one of the two `success: true` objects. */
  lemma SuccessNeverThrows(r: Response, rt: Runtime)
    requires r.Ok()
    ensures SafeParseResponse(r, rt).Returned?
    ensures var v := SafeParseResponse(r, rt).value;
            v == NoContent
            || (r.body.Text? && v == Unparsed(r.body.text))
            || (r.body.Text? && rt.cleanAndParse(r.body.text) == Some(v))
  {
  }
}

=== FILE: js.dfy ===
/** The slice of JavaScript semantics that the plugin's decisions rest on:
    the values `JSON.parse` produces, property reads on them, the `<`
    operator, string conversion in template literals, truthiness, and `btoa`.
    Host algorithms whose internals are not part of the model are gathered
    in `Runtime` and passed in. */
module Js {

  datatype Option<+T> = None | Some(value: T)

  /** How a JavaScript call completes: it returns a value or throws an error carrying a message. */
  datatype Thrown<+T> = Returned(value: T) | Threw(message: string)

  /** A JavaScript value as decoded from JSON; `Undefined` is what reading a missing property gives. */
  datatype Value =
    | Undefined
    | Null
    | Bool(b: bool)
    | Num(n: real)
    | Str(s: string)
    | Arr(elems: seq<Value>)
    | Obj(fields: map<string, Value>)
  {
    predicate IsPrimitive() { !Arr? && !Obj? }
    predicate IsNullish() { Undefined? || Null? }
  }

  /** Host algorithms the model treats as given functions. */
  datatype Runtime = Runtime(
    // the whitespace/quote/comma clean-up chain followed by `JSON.parse`; `None` when `JSON.parse` throws
    cleanAndParse: string -> Option<Value>,
    // the Base64 text `btoa` produces for a string whose characters are all Latin-1
    base64: string -> string,
    // `Number::toString` for numbers that are not integers below 10^21 in magnitude
    fractionToString: real -> string,
    // `StringToNumber`; `None` stands for NaN
    stringToNumber: string -> Option<real>)

  /** Property names the plugin reads from decoded responses; none of them is defined on a built-in prototype. */
  const ReadKeys: set<string> := {"inSyncFiles", "globalFiles", "version"}

  /** JavaScript truthiness (`if (v)`). */
  predicate Truthy(v: Value) {
    match v
    case Undefined => false
    case Null => false
    case Bool(b) => b
    case Num(n) => n != 0.0
    case Str(s) => s != ""
    case _ => true
  }

  /** The TypeError V8 raises for `base.key` when `base` is null or undefined. */
  function ReadError(base: string, key: string): string {
    "Cannot read properties of " + base + " (reading '" + key + "')"
  }

  /** `v.key`: throws on null and undefined, looks the key up in an object, and is undefined on every other value. */
  function GetProperty(v: Value, key: string): (r: Thrown<Value>)
    requires key in ReadKeys
    ensures r.Threw? <==> v.IsNullish()
    ensures v.Obj? && key in v.fields ==> r == Returned(v.fields[key])
    ensures !v.Obj? && !v.IsNullish() ==> r == Returned(Undefined)
    ensures v.Obj? && key !in v.fields ==> r == Returned(Undefined)
  {
    match v
    case Undefined => Threw(ReadError("undefined", key))
    case Null => Threw(ReadError("null", key))
    case Obj(fields) => Returned(if key in fields then fields[key] else Undefined)
    case _ => Returned(Undefined)
  }

  function Digit(d: nat): char
    requires d < 10
  {
    "0123456789"[d]
  }

  /** Decimal digits of a natural number, as `Number::toString` writes an integer. */
  function NatToDecimal(n: nat): (s: string)
    ensures |s| > 0
    decreases n
  {
    if n < 10 then [Digit(n)] else NatToDecimal(n / 10) + [Digit(n % 10)]
  }

  function IntToDecimal(i: int): string {
    if i < 0 then "-" + NatToDecimal(-i) else NatToDecimal(i)
  }

  predicate IsDigitChar(c: char) { '0' <= c <= '9' }

  /** The value of a string of decimal digits; the inverse of `NatToDecimal`. */
  function DecimalValue(s: string): nat
    requires forall k :: 0 <= k < |s| ==> IsDigitChar(s[k])
  {
    if s == [] then 0
    else
      var last := s[|s| - 1];
      assert IsDigitChar(last);
      DecimalValue(s[..|s| - 1]) * 10 + ((last as int) - ('0' as int))
  }

  /** Rendering a count and reading it back gives the count: distinct counts are shown differently. */
  lemma {:induction false} DecimalRoundTrip(n: nat)
    ensures forall k :: 0 <= k < |NatToDecimal(n)| ==> IsDigitChar(NatToDecimal(n)[k])
    ensures DecimalValue(NatToDecimal(n)) == n
    decreases n
  {
    if n >= 10 {
      DecimalRoundTrip(n / 10);
      var prefix := NatToDecimal(n / 10);
      var s := prefix + [Digit(n % 10)];
      assert s[..|s| - 1] == prefix;
    }
  }

  /** `Number::toString`: integers below 10^21 in magnitude are written in plain decimal. */
  function NumberToString(n: real, rt: Runtime): string {
    if n == n.Floor as real && -1000000000000000000000.0 < n < 1000000000000000000000.0
    then IntToDecimal(n.Floor)
    else rt.fractionToString(n)
  }

  /** The TypeError V8 raises when an object has neither a callable `toString` nor a callable `valueOf`
      that yields a primitive. */
  const ConvertError: string := "Cannot convert object to primitive value"

  /** Whether `ToPrimitive` succeeds on a value decoded from JSON. Nothing decoded from JSON is callable,
      so an object whose own `toString` field shadows `Object.prototype.toString` cannot be converted
      (the inherited `valueOf` gives back the object itself, whatever the hint). An array converts through
      `join`, which converts every element. */
  predicate Convertible(v: Value)
    decreases v
  {
    match v
    case Obj(fields) => "toString" !in fields
    case Arr(elems) => forall k :: 0 <= k < |elems| ==> Convertible(elems[k])
    case _ => true
  }

  /** `ToString(v)`, as a template literal applies it. */
  function ToJsString(v: Value, rt: Runtime): (r: Thrown<string>)
    ensures r.Returned? <==> Convertible(v)
    ensures r.Threw? ==> r.message == ConvertError
    decreases v, 1, 0
  {
    match v
    case Undefined => Returned("undefined")
    case Null => Returned("null")
    case Bool(b) => Returned(if b then "true" else "false")
    case Num(n) => Returned(NumberToString(n, rt))
    case Str(s) => Returned(s)
    case Arr(_) => JoinFrom(v, 0, rt)
    case Obj(fields) => if "toString" in fields then Threw(ConvertError) else Returned("[object Object]")
  }

  /** `Array.prototype.join(",")` on the elements of `arr` from index `i` on; null and undefined elements
      become empty, every other element is converted, and the first conversion that throws ends the join. */
  function JoinFrom(arr: Value, i: nat, rt: Runtime): (r: Thrown<string>)
    requires arr.Arr? && i <= |arr.elems|
    ensures r.Returned? <==> forall k :: i <= k < |arr.elems| ==> Convertible(arr.elems[k])
    ensures r.Threw? ==> r.message == ConvertError
    decreases arr, 0, |arr.elems| - i
  {
    if i == |arr.elems| then Returned("")
    else
      var e := arr.elems[i];
      match (if e.IsNullish() then Returned("") else ToJsString(e, rt))
      case Threw(message) => Threw(message)
      case Returned(piece) =>
        if i + 1 == |arr.elems| then Returned(piece)
        else
          match JoinFrom(arr, i + 1, rt)
          case Threw(message) => Threw(message)
          case Returned(rest) => Returned(piece + "," + rest)
  }

  /** `ToPrimitive`: objects and arrays convert through their string form (for values decoded from JSON
      the hint makes no difference); primitives stay as they are. */
  function ToPrimitive(v: Value, rt: Runtime): (p: Thrown<Value>)
    ensures p.Returned? <==> Convertible(v)
    ensures p.Returned? ==> p.value.IsPrimitive()
    ensures v.IsPrimitive() ==> p == Returned(v)
    ensures v.Obj? && p.Returned? ==> p.value == Str("[object Object]")
    ensures !v.IsPrimitive() && p.Returned? ==> p.value == Str(ToJsString(v, rt).value)
    ensures p.Threw? ==> p.message == ConvertError
  {
    if v.IsPrimitive() then Returned(v)
    else
      match ToJsString(v, rt)
      case Threw(message) => Threw(message)
      case Returned(text) => Returned(Str(text))
  }

  /** `ToNumber` on a primitive; `None` stands for NaN. */
  function ToNumber(p: Value, rt: Runtime): Option<real>
    requires p.IsPrimitive()
  {
    match p
    case Undefined => None
    case Null => Some(0.0)
    case Bool(b) => Some(if b then 1.0 else 0.0)
    case Num(n) => Some(n)
    case Str(s) => rt.stringToNumber(s)
  }

  /** Lexicographic order on strings, character by character, a proper prefix coming first. */
  predicate StringLess(a: string, b: string) {
    if b == [] then false
    else if a == [] then true
    else if a[0] != b[0] then a[0] < b[0]
    else StringLess(a[1..], b[1..])
  }

  /** The `<` operator: both operands are converted to primitives, left first, and either conversion may
      throw; two strings then compare lexicographically, anything else numerically, and NaN compares false. */
  function LessThan(a: Value, b: Value, rt: Runtime): (r: Thrown<bool>)
    ensures r.Returned? <==> Convertible(a) && Convertible(b)
    ensures r.Threw? ==> r.message == ConvertError
  {
    match ToPrimitive(a, rt)
    case Threw(message) => Threw(message)
    case Returned(pa) =>
      match ToPrimitive(b, rt)
      case Threw(message) => Threw(message)
      case Returned(pb) =>
        if pa.Str? && pb.Str? then Returned(StringLess(pa.s, pb.s))
        else
          var x := ToNumber(pa, rt);
          var y := ToNumber(pb, rt);
          Returned(x.Some? && y.Some? && x.value < y.value)
  }

  /** An undefined operand (a missing field) makes `<` false on either side, unless the other operand is
      an object that cannot be converted, in which case `<` throws. */
  lemma UndefinedIsNeverLess(v: Value, rt: Runtime)
    ensures LessThan(Undefined, v, rt) == if Convertible(v) then Returned(false) else Threw(ConvertError)
    ensures LessThan(v, Undefined, rt) == if Convertible(v) then Returned(false) else Threw(ConvertError)
  {
  }

  /** On two numbers `<` never throws and is the order of the numbers. */
  lemma NumbersCompareByValue(x: real, y: real, rt: Runtime)
    ensures LessThan(Num(x), Num(y), rt) == Returned(x < y)
  {
  }

  predicate Latin1(s: string) {
    forall k :: 0 <= k < |s| ==> s[k] as int <= 0xFF
  }

  /** The DOMException message Chromium's `btoa` raises for a character outside Latin-1. */
  const BtoaRangeError: string :=
    "Failed to execute 'btoa' on 'Window': The string to be encoded contains characters outside of the Latin1 range."

  /** `btoa(s)`: encodes a Latin-1 string and throws on any other. */
  function Btoa(s: string, rt: Runtime): (r: Thrown<string>)
    ensures r.Returned? <==> Latin1(s)
    ensures r.Returned? ==> r.value == rt.base64(s)
    ensures r.Threw? ==> r.message == BtoaRangeError
  {
    if Latin1(s) then Returned(rt.base64(s)) else Threw(BtoaRangeError)
  }
}

=== FILE: plugin.dfy ===
/** `SyncthingPlugin` and the part of `SyncthingSettingTab` with logic in it.
    The plugin owns the status shown in the status bar and the handle of its
    recurring poll timer. Each method runs to completion with the outcomes of
    its network calls given as arguments. */
module Plugin {
  import opened Js
  import opened Config
  import opened Auth
  import opened Decoder
  import opened Client
  import opened Status
  import opened Timers

  /** The status bar element: its `data-status` and `data-tooltip` attributes and its text. */
  class StatusBarItem {
    var dataStatus: Option<SyncStatus>
    var tooltip: Option<string>
    var text: string

    constructor ()
      ensures dataStatus == None && tooltip == None && text == ""
    {
      dataStatus := None;
      tooltip := None;
      text := "";
    }
  }

  function IdSet(id: Option<TimerId>): set<TimerId> {
    if id.Some? then {id.value} else {}
  }

  class SyncthingPlugin {
    var settings: Settings
    var syncStatus: SyncStatus
    /** The handle of the recurring poll timer last created; `None` for `null`. */
    var intervalId: Option<TimerId>
    const statusBarItem: StatusBarItem
    const timers: TimerTable
    const rt: Runtime
    /** The requests sent so far, in order. */
    ghost var sent: seq<Request>

    /** The only recurring timer that may be active is the one `intervalId` holds,
        and the status bar shows the current status. */
    ghost predicate Valid()
      reads this, statusBarItem, timers
    {
      && timers.Valid()
      && timers.intervals.Keys <= IdSet(intervalId)
      && statusBarItem.dataStatus == Some(syncStatus)
      && statusBarItem.text == StatusText(syncStatus)
    }

    /** The field initialisers and `onload`. `saved` is what `loadData` gives: nothing on a first run,
        otherwise the record `saveSettings` wrote, which has every field and so replaces all of `Defaults`
        in `loadSettings`. Polling starts from a one-shot timer two seconds later. */
    constructor (saved: Option<Settings>, rt: Runtime)
      ensures Valid() && fresh(statusBarItem) && fresh(timers)
      ensures saved.None? ==> settings == Defaults
      ensures saved.Some? ==> settings == saved.value
      ensures syncStatus == Idle && intervalId == None
      ensures statusBarItem.tooltip == None && sent == []
      ensures timers.intervals == map[] && timers.oneShots == [OneShot(Task.StartPolling, 2000)]
    {
      settings := if saved.Some? then saved.value else Defaults;
      syncStatus := Idle;
      intervalId := None;
      this.rt := rt;
      sent := [];
      statusBarItem := new StatusBarItem();
      timers := new TimerTable();
      new;
      UpdateStatusBarItem();
      var _ := timers.SetTimeout(Task.StartPolling, 2000);
    }

    method UpdateStatusBarItem()
      modifies statusBarItem
      ensures statusBarItem.dataStatus == Some(syncStatus) && statusBarItem.text == StatusText(syncStatus)
      ensures statusBarItem.tooltip == old(statusBarItem.tooltip)
    {
      statusBarItem.dataStatus := Some(syncStatus);
      statusBarItem.text := StatusText(syncStatus);
    }

    /** The plugin shows what cycle `c` displays, and has sent its requests after `before`. */
    ghost predicate Shows(c: Cycle, before: seq<Request>)
      reads this, statusBarItem
    {
      syncStatus == c.display.status && statusBarItem.tooltip == Some(c.display.tooltip) && sent == before + c.sent
    }

    /** The guard at the head of `startPolling` and `checkSyncStatus` when no folder id is set. */
    method ReportMissingFolder()
      requires Valid()
      modifies this, statusBarItem
      ensures Valid()
      ensures syncStatus == Error && statusBarItem.tooltip == Some(NoFolderTooltip)
      ensures settings == old(settings) && intervalId == old(intervalId) && sent == old(sent)
    {
      syncStatus := Error;
      statusBarItem.tooltip := Some(NoFolderTooltip);
      UpdateStatusBarItem();
    }

    /** Where the part of a check before its first `await` leaves the plugin: syncing if the headers were
        built, otherwise the error `btoa` threw. */
    ghost predicate Began(headers: Thrown<Headers>, tooltipBefore: Option<string>)
      reads this, statusBarItem
    {
      && (headers.Returned? ==> syncStatus == Syncing && statusBarItem.tooltip == tooltipBefore)
      && (headers.Threw? ==> syncStatus == Error && statusBarItem.tooltip == Some(Failure(headers.message).tooltip))
    }

    /** The part of `checkSyncStatus` that runs before its first `await`, for a set folder id: the status
        turns to syncing and the headers are built. If `btoa` throws, the check ends here in error. */
    method BeginCheck() returns (headers: Thrown<Headers>)
      requires Valid() && settings.folderId != ""
      modifies this, statusBarItem
      ensures Valid()
      ensures headers == AuthHeaders(settings, rt) && Began(headers, old(statusBarItem.tooltip))
      ensures settings == old(settings) && intervalId == old(intervalId) && sent == old(sent)
    {
      syncStatus := Syncing;
      UpdateStatusBarItem();
      headers := AuthHeaders(settings, rt);
      if headers.Threw? {
        syncStatus := Error;
        statusBarItem.tooltip := Some("Error: " + headers.message);
        UpdateStatusBarItem();
      }
    }

    /** The rest of `checkSyncStatus` once the headers are built: the ping, then the folder status. It ends in
        the status and tooltip `CheckCycle` gives, having sent the requests `CheckCycle` lists. */
    method FinishCheck(headers: Headers, ping: FetchOutcome, folder: FetchOutcome)
      requires Valid() && settings.folderId != "" && AuthHeaders(settings, rt) == Returned(headers)
      modifies this, statusBarItem
      ensures Valid()
      ensures Shows(CheckCycle(settings, rt, ping, folder), old(sent))
      ensures settings == old(settings) && intervalId == old(intervalId)
    {
      ghost var cycle := CheckCycle(settings, rt, ping, folder);
      var failure: Option<string> := None;
      var pingRequest := Request(Get, PingUrl(settings), headers);
      sent := sent + [pingRequest];
      var pingFailure := PingFailure(ping);
      if pingFailure.Some? {
        failure := Some("Connection failed: " + pingFailure.value);
        assert cycle == Cycle(Failure(failure.value), [pingRequest]);
      } else {
        var folderRequest := Request(Get, FolderStatusUrl(settings), headers);
        sent := sent + [folderRequest];
        assert cycle.sent == [pingRequest, folderRequest];
        match folder
        case NetworkError(message) =>
          failure := Some("Folder error: " + message);
          assert cycle.display == Failure(failure.value);
        case Responded(response) =>
          if !response.Ok() {
            failure := Some("Folder error: " + FolderStatusError(response));
            assert cycle.display == Failure(failure.value);
          } else {
            var verdict := Verdict(SafeParseResponse(response, rt), rt);
            assert cycle.display == verdict;
            syncStatus := verdict.status;
            statusBarItem.tooltip := Some(verdict.tooltip);
          }
      }
      if failure.Some? {
        syncStatus := Error;
        statusBarItem.tooltip := Some("Error: " + failure.value);
      }
      UpdateStatusBarItem();
    }

    /** One whole status check, as a tick of the poll timer runs it: ends in the status and tooltip
        `CheckCycle` gives, having sent its requests. */
    method CheckSyncStatus(ping: FetchOutcome, folder: FetchOutcome)
      requires Valid()
      modifies this, statusBarItem
      ensures Valid()
      ensures Shows(CheckCycle(settings, rt, ping, folder), old(sent))
      ensures settings == old(settings) && intervalId == old(intervalId)
    {
      if settings.folderId == "" {
        ReportMissingFolder();
        return;
      }
      var headers := BeginCheck();
      if headers.Returned? {
        FinishCheck(headers.value, ping, folder);
      }
    }

    /** Clears the previous poll timer, then either reports the missing folder id or creates one fresh
        recurring timer and starts the first check without awaiting it: when `startPolling` returns, that
        check has run up to its first `await`. At most one recurring timer is active afterwards. */
    method StartPolling()
      requires Valid()
      modifies this, statusBarItem, timers
      ensures Valid()
      ensures settings == old(settings) && timers.oneShots == old(timers.oneShots) && sent == old(sent)
      ensures settings.folderId == "" ==>
                && timers.intervals == map[] && intervalId == old(intervalId) && timers.lastId == old(timers.lastId)
                && syncStatus == Error && statusBarItem.tooltip == Some(NoFolderTooltip)
      ensures settings.folderId != "" ==>
                && intervalId == Some(old(timers.lastId) + 1) && timers.lastId == old(timers.lastId) + 1
                && timers.intervals == map[old(timers.lastId) + 1 := settings.pollInterval * 1000]
                && Began(AuthHeaders(settings, rt), old(statusBarItem.tooltip))
    {
      ClearPollTimer();
      if settings.folderId == "" {
        ReportMissingFolder();
        return;
      }
      var id := timers.SetInterval(settings.pollInterval * 1000);
      intervalId := Some(id);
      var _ := BeginCheck();
    }

    /** Clears the recurring timer `intervalId` holds, if any; with it no recurring timer is left. */
    method ClearPollTimer()
      requires Valid()
      modifies timers
      ensures Valid()
      ensures timers.intervals == map[] && timers.lastId == old(timers.lastId) && timers.oneShots == old(timers.oneShots)
    {
      if intervalId.Some? {
        timers.ClearInterval(intervalId.value);
      }
    }

    /** `onunload`: no recurring timer is left active, and calling it again changes nothing. */
    method OnUnload()
      requires Valid()
      modifies timers
      ensures Valid()
      ensures timers.intervals == map[] && timers.oneShots == old(timers.oneShots)
    {
      ClearPollTimer();
    }

    /** A manual rescan: ends as `ForceSyncResult` says. On success the status stays syncing and exactly one
        one-shot check is scheduled two seconds later; no recurring timer is created in any case. */
    method ForceSync(scan: FetchOutcome)
      requires Valid()
      modifies this, statusBarItem, timers
      ensures Valid()
      ensures settings == old(settings) && intervalId == old(intervalId) && timers.intervals == old(timers.intervals)
      ensures match ForceSyncResult(settings, rt, scan)
              case Skipped =>
                && syncStatus == old(syncStatus) && statusBarItem.tooltip == old(statusBarItem.tooltip)
                && sent == old(sent) && timers.oneShots == old(timers.oneShots)
              case Initiated(request) =>
                && syncStatus == Syncing && statusBarItem.tooltip == old(statusBarItem.tooltip)
                && sent == old(sent) + [request]
                && timers.oneShots == old(timers.oneShots) + [OneShot(Task.CheckSyncStatus, 2000)]
              case Failed(message, requests) =>
                && syncStatus == Error && statusBarItem.tooltip == Some("Error: " + message)
                && sent == old(sent) + requests && timers.oneShots == old(timers.oneShots)
    {
      if settings.folderId == "" {
        return;
      }
      syncStatus := Syncing;
      UpdateStatusBarItem();

      var failure: Option<string> := None;
      var headers := AuthHeaders(settings, rt);
      if headers.Threw? {
        failure := Some(headers.message);
      } else {
        sent := sent + [Request(Post, ScanUrl(settings), headers.value)];
        match scan
        case NetworkError(message) =>
          failure := Some(message);
        case Responded(response) =>
          if !response.Ok() {
            failure := Some(HttpErrorMessage(response));
          } else {
            // the decoded body and any error from decoding it are discarded
            var _ := SafeParseResponse(response, rt);
            var _ := timers.SetTimeout(Task.CheckSyncStatus, 2000);
          }
      }
      if failure.Some? {
        syncStatus := Error;
        statusBarItem.tooltip := Some("Error: " + failure.value);
        UpdateStatusBarItem();
      }
    }
  }

  /** Whatever sequence of calls led to a valid plugin, at most one recurring timer is active. */
  lemma AtMostOneInterval(p: SyncthingPlugin)
    requires p.Valid()
    ensures |p.timers.intervals| <= 1
  {
    var keys := p.timers.intervals.Keys;
    assert |p.timers.intervals| == |keys|;
    if p.intervalId.Some? {
      assert keys == {} || keys == {p.intervalId.value};
    } else {
      assert keys == {};
    }
  }

  class SyncthingSettingTab {
    const plugin: SyncthingPlugin

    constructor (plugin: SyncthingPlugin)
      ensures this.plugin == plugin
    {
      this.plugin := plugin;
    }

    /** The poll-interval field's change handler; `parsed` is `parseInt(value, 10)`. Only the interval
        changes, and only to an integer of at least five seconds; the running timer keeps its period. */
    method OnPollIntervalChange(parsed: Option<int>)
      requires plugin.Valid()
      modifies plugin
      ensures plugin.Valid()
      ensures plugin.settings == PollIntervalInput(old(plugin.settings), parsed)
      ensures plugin.syncStatus == old(plugin.syncStatus) && plugin.intervalId == old(plugin.intervalId)
      ensures plugin.sent == old(plugin.sent)
    {
      if parsed.Some? && parsed.value >= MinPollInterval {
        plugin.settings := plugin.settings.(pollInterval := parsed.value);
      }
    }

    /** The "Restart Sync" button. */
    method OnRestartSync()
      requires plugin.Valid()
      modifies plugin, plugin.statusBarItem, plugin.timers
      ensures plugin.Valid() && |plugin.timers.intervals| <= 1
      ensures plugin.settings == old(plugin.settings) && plugin.sent == old(plugin.sent)
      ensures plugin.timers.oneShots == old(plugin.timers.oneShots)
      ensures plugin.settings.folderId == "" ==>
                plugin.timers.intervals == map[] && plugin.syncStatus == Error && plugin.statusBarItem.tooltip == Some(NoFolderTooltip)
      ensures plugin.settings.folderId != "" ==>
                && plugin.intervalId == Some(old(plugin.timers.lastId) + 1) && plugin.timers.intervals.Keys == {plugin.intervalId.value}
                && plugin.Began(AuthHeaders(plugin.settings, plugin.rt), old(plugin.statusBarItem.tooltip))
    {
      plugin.StartPolling();
      AtMostOneInterval(plugin);
    }
  }

  /** `startPolling`, then the rest of the check it started once its requests settle: the plugin ends where
      one whole check ends, with the fresh recurring timer in place. */
  method StartThenSettle(p: SyncthingPlugin, ping: FetchOutcome, folder: FetchOutcome)
    requires p.Valid() && p.settings.folderId != ""
    modifies p, p.statusBarItem, p.timers
    ensures p.Valid() && p.intervalId == Some(old(p.timers.lastId) + 1)
    ensures p.timers.intervals == map[p.intervalId.value := p.settings.pollInterval * 1000]
    ensures p.Shows(CheckCycle(p.settings, p.rt, ping, folder), old(p.sent))
  {
    p.StartPolling();
    var headers := AuthHeaders(p.settings, p.rt);
    if headers.Returned? {
      p.FinishCheck(headers.value, ping, folder);
    }
  }

  /** Restarting polling twice in a row leaves exactly one recurring timer, the second one created. */
  method RestartTwice(p: SyncthingPlugin)
    requires p.Valid() && p.settings.folderId != ""
    modifies p, p.statusBarItem, p.timers
    ensures p.Valid() && |p.timers.intervals| == 1
    ensures p.intervalId == Some(old(p.timers.lastId) + 2) && p.intervalId.value in p.timers.intervals
  {
    p.StartPolling();
    p.StartPolling();
  }

  /** Unloading after a start leaves no recurring timer; unloading a second time keeps it so. */
  method StartThenUnload(p: SyncthingPlugin)
    requires p.Valid()
    modifies p, p.statusBarItem, p.timers
    ensures p.Valid() && p.timers.intervals == map[]
  {
    p.StartPolling();
    p.OnUnload();
    p.OnUnload();
  }

  /** Unloading before the two-second start-up timer fires leaves that timer scheduled, while no recurring
      timer is active. */
  method LoadThenUnload(saved: Option<Settings>, rt: Runtime) returns (p: SyncthingPlugin)
    ensures fresh(p) && fresh(p.statusBarItem) && fresh(p.timers)
    ensures p.Valid() && p.timers.intervals == map[]
    ensures p.timers.oneShots == [OneShot(Task.StartPolling, 2000)]
  {
    p := new SyncthingPlugin(saved, rt);
    p.OnUnload();
  }

  /** When the start-up timer that survived unloading fires, `startPolling` creates a recurring timer
      (for a set folder id), so the unloaded plugin polls again. */
  method StartUpTimerFiresAfterUnload(saved: Option<Settings>, rt: Runtime) returns (p: SyncthingPlugin)
    ensures p.Valid() && p.timers.oneShots == [OneShot(Task.StartPolling, 2000)]
    ensures p.settings.folderId != "" ==> |p.timers.intervals| == 1
    ensures p.settings.folderId == "" ==> p.timers.intervals == map[]
  {
    p := LoadThenUnload(saved, rt);
    p.StartPolling();
  }
}

=== FILE: status.dfy ===
/** The four sync statuses, the text the status bar shows for each, and one
    cycle of `checkSyncStatus` as a function of its inputs: the settings, the
    outcome of the ping and the outcome of the folder-status request. */
module Status {
  import opened Js
  import opened Config
  import opened Auth
  import opened Decoder
  import opened Client

  datatype SyncStatus = Idle | Syncing | Error | Synced

  /** The status bar text `updateStatusBarItem` sets for each status. */
  function StatusText(st: SyncStatus): (t: string)
    ensures |t| > 11 && t[..11] == "Syncthing: "
  {
    match st
    case Idle => "Syncthing: Idle"
    case Syncing => "Syncthing: Syncing..."
    case Error => "Syncthing: Error"
    case Synced => "Syncthing: Synced"
  }

  /** Distinct statuses are shown with distinct texts. */
  lemma StatusTextInjective(a: SyncStatus, b: SyncStatus)
    ensures StatusText(a) == StatusText(b) ==> a == b
  {
    if a != b {
      assert |StatusText(a)| != |StatusText(b)|;
    }
  }

  /** The status and the `data-tooltip` text a cycle leaves behind. */
  datatype Display = Display(status: SyncStatus, tooltip: string)

  const NoFolderTooltip: string := "Error: Folder ID not set"
  const InSyncTooltip: string := "All files in sync"
  const AssumedTooltip: string := "All files in sync (assumed)"

  predicate IsErrorTooltip(tooltip: string) {
    |tooltip| >= 7 && tooltip[..7] == "Error: "
  }

  /** A tooltip whose first character is not 'E' is not an error tooltip. */
  lemma NotErrorTooltip(tooltip: string)
    requires |tooltip| > 0 && tooltip[0] != 'E'
    ensures !IsErrorTooltip(tooltip)
  {
    if |tooltip| >= 7 {
      assert tooltip[..7][0] == tooltip[0];
    }
  }

  /** A status check never leaves the status idle, and the status is error exactly when the tooltip
      starts with "Error: ". */
  predicate Consistent(d: Display) {
    d.status != Idle && (d.status == Error <==> IsErrorTooltip(d.tooltip))
  }

  /** The catch-all of `checkSyncStatus`: status error, tooltip "Error: " and the message. */
  function Failure(message: string): (d: Display)
    ensures d.status == Error && Consistent(d)
  {
    var d := Display(Error, "Error: " + message);
    assert d.tooltip[..7] == "Error: ";
    d
  }

  /** The template literal `Syncing: ${data.inSyncFiles}/${data.globalFiles} files`, which throws when a
      count cannot be converted to a string. */
  function ProgressTooltip(inSync: Value, global: Value, rt: Runtime): (r: Thrown<string>)
    ensures r.Returned? <==> Convertible(inSync) && Convertible(global)
    ensures r.Returned? ==> |r.value| > 9 && r.value[..9] == "Syncing: "
  {
    match ToJsString(inSync, rt)
    case Threw(message) => Threw(message)
    case Returned(x) =>
      match ToJsString(global, rt)
      case Threw(message) => Threw(message)
      case Returned(y) => Returned("Syncing: " + x + "/" + y + " files")
  }

  /** `data.inSyncFiles` and `data.globalFiles` of a non-nullish decoded value. */
  function Field(data: Value, key: string): Value
    requires key in ReadKeys && !data.IsNullish()
  {
    GetProperty(data, key).value
  }

  /** Something inside the `try` around the decision throws: decoding threw, the decoded value is null or
      undefined (so reading a count throws), or a count cannot be converted for `<`. */
  predicate DecisionThrows(decoded: Thrown<Value>) {
    || decoded.Threw?
    || decoded.value.IsNullish()
    || !Convertible(Field(decoded.value, "inSyncFiles"))
    || !Convertible(Field(decoded.value, "globalFiles"))
  }

  /** The decision on a decoded folder status: any exception inside the `try` gives the assumed verdict;
      otherwise `inSyncFiles < globalFiles` decides. */
  function Verdict(decoded: Thrown<Value>, rt: Runtime): (d: Display)
    ensures d.status == Syncing || d.status == Synced
    ensures !IsErrorTooltip(d.tooltip)
    ensures d.tooltip == AssumedTooltip <==> DecisionThrows(decoded)
    ensures !DecisionThrows(decoded) ==>
              var inSync := Field(decoded.value, "inSyncFiles");
              var global := Field(decoded.value, "globalFiles");
              d == if LessThan(inSync, global, rt).value then Display(Syncing, ProgressTooltip(inSync, global, rt).value)
                   else Display(Synced, InSyncTooltip)
  {
    assert AssumedTooltip[0] == InSyncTooltip[0] == 'A';
    NotErrorTooltip(AssumedTooltip);
    NotErrorTooltip(InSyncTooltip);
    match decoded
    case Threw(_) => Display(Synced, AssumedTooltip)
    case Returned(data) =>
      match GetProperty(data, "inSyncFiles")
      case Threw(_) => Display(Synced, AssumedTooltip)
      case Returned(inSync) =>
        match GetProperty(data, "globalFiles")
        case Threw(_) => Display(Synced, AssumedTooltip)
        case Returned(global) =>
          match LessThan(inSync, global, rt)
          case Threw(_) => Display(Synced, AssumedTooltip)
          case Returned(less) =>
            if !less then Display(Synced, InSyncTooltip)
            else
              match ProgressTooltip(inSync, global, rt)
              case Threw(_) => Display(Synced, AssumedTooltip)
              case Returned(t) =>
                assert t[0] == t[..9][0] == 'S';
                NotErrorTooltip(t);
                Display(Syncing, t)
  }

  /** The error `checkSyncStatus` throws when the folder-status request gets a failed status. */
  function FolderStatusError(r: Response): string {
    "Folder status error: HTTP " + IntToDecimal(r.status) + " " + r.statusText
  }

  /** The folder-status request: a failed request or status throws, an answered one is decoded and judged. */
  function FolderStep(folder: FetchOutcome, rt: Runtime): (r: Thrown<Display>)
    ensures r.Threw? <==> !folder.Succeeded()
    ensures folder.NetworkError? ==> r == Threw(folder.message)
    ensures folder.Responded? && !folder.response.Ok() ==> r == Threw(FolderStatusError(folder.response))
    ensures folder.Succeeded() ==> r == Returned(Verdict(SafeParseResponse(folder.response, rt), rt))
  {
    match folder
    case NetworkError(message) => Threw(message)
    case Responded(response) =>
      if !response.Ok() then Threw(FolderStatusError(response))
      else Returned(Verdict(SafeParseResponse(response, rt), rt))
  }

  /** The folder-status step as the cycle sees it: what it throws is rethrown as a "Folder error: ". */
  function FolderDisplay(folder: FetchOutcome, rt: Runtime): (d: Display)
    ensures Consistent(d)
    ensures d.status == Error <==> !folder.Succeeded()
    ensures !folder.Succeeded() ==> d == Failure("Folder error: " + FolderStep(folder, rt).message)
    ensures folder.Succeeded() ==> d == Verdict(SafeParseResponse(folder.response, rt), rt)
  {
    match FolderStep(folder, rt)
    case Threw(message) => Failure("Folder error: " + message)
    case Returned(d) => d
  }

  /** The result of one status check: what it displays and which requests it sends. */
  datatype Cycle = Cycle(display: Display, sent: seq<Request>)

  /** One run of `checkSyncStatus`. */
  function CheckCycle(s: Settings, rt: Runtime, ping: FetchOutcome, folder: FetchOutcome): (c: Cycle)
    ensures Consistent(c.display)
    ensures |c.sent| <= 2
    ensures s.folderId == "" ==> c == Cycle(Display(Error, NoFolderTooltip), [])
  {
    if s.folderId == "" then Cycle(Display(Error, NoFolderTooltip), [])
    else
      match AuthHeaders(s, rt)
      case Threw(message) => Cycle(Failure(message), [])
      case Returned(headers) =>
        var pingRequest := Request(Get, PingUrl(s), headers);
        match PingFailure(ping)
        case Some(message) => Cycle(Failure("Connection failed: " + message), [pingRequest])
        case None =>
          var folderRequest := Request(Get, FolderStatusUrl(s), headers);
          Cycle(FolderDisplay(folder, rt), [pingRequest, folderRequest])
  }

  /** The cycle gets as far as the folder-status decision. */
  predicate ReachesDecision(s: Settings, rt: Runtime, ping: FetchOutcome, folder: FetchOutcome) {
    s.folderId != "" && AuthHeaders(s, rt).Returned? && ping.Succeeded() && folder.Succeeded()
  }

  /** A cycle that reaches the decision displays the verdict on the decoded folder status. */
  lemma DecisionDisplay(s: Settings, rt: Runtime, ping: FetchOutcome, folder: FetchOutcome)
    requires ReachesDecision(s, rt, ping, folder)
    ensures CheckCycle(s, rt, ping, folder).display == Verdict(SafeParseResponse(folder.response, rt), rt)
  {
  }

  /** A failed ping ends the cycle in error, and the folder status is never requested:
      only the ping is sent, and the folder outcome does not matter. */
  lemma PingFailureStopsCycle(s: Settings, rt: Runtime, ping: FetchOutcome, folder: FetchOutcome, other: FetchOutcome)
    requires s.folderId != "" && AuthHeaders(s, rt).Returned? && !ping.Succeeded()
    ensures var c := CheckCycle(s, rt, ping, folder);
            c.display == Failure("Connection failed: " + PingFailure(ping).value)
            && c.sent == [Request(Get, PingUrl(s), AuthHeaders(s, rt).value)]
            && c == CheckCycle(s, rt, ping, other)
  {
  }

  /** A failed folder-status request ends the cycle in error, after both requests were sent. */
  lemma FolderFailureIsError(s: Settings, rt: Runtime, ping: FetchOutcome, folder: FetchOutcome)
    requires s.folderId != "" && AuthHeaders(s, rt).Returned? && ping.Succeeded() && !folder.Succeeded()
    ensures var c := CheckCycle(s, rt, ping, folder);
            c.display == Failure("Folder error: " + FolderStep(folder, rt).message)
            && |c.sent| == 2 && c.sent[1] == Request(Get, FolderStatusUrl(s), AuthHeaders(s, rt).value)
  {
  }

  /** Numeric counts decide: fewer files in sync than in the global model means syncing, otherwise synced. */
  lemma CountsDecide(s: Settings, rt: Runtime, ping: FetchOutcome, folder: FetchOutcome, data: map<string, Value>, x: real, y: real)
    requires ReachesDecision(s, rt, ping, folder)
    requires folder.response.body.Text? && folder.response.body.text != ""
    requires rt.cleanAndParse(folder.response.body.text) == Some(Obj(data))
    requires "inSyncFiles" in data && data["inSyncFiles"] == Num(x)
    requires "globalFiles" in data && data["globalFiles"] == Num(y)
    ensures CheckCycle(s, rt, ping, folder).display
            == if x < y then Display(Syncing, ProgressTooltip(Num(x), Num(y), rt).value) else Display(Synced, InSyncTooltip)
  {
    NumbersCompareByValue(x, y, rt);
  }

  /** A decoded value that lacks either count (including both `success: true` fallbacks) means synced:
      `undefined < v` is false, unless `v` cannot be converted, in which case it throws and the verdict is
      assumed. */
  lemma MissingCountMeansSynced(s: Settings, rt: Runtime, ping: FetchOutcome, folder: FetchOutcome)
    requires ReachesDecision(s, rt, ping, folder)
    requires var data := SafeParseResponse(folder.response, rt).value;
             !data.IsNullish() && (Field(data, "inSyncFiles").Undefined? || Field(data, "globalFiles").Undefined?)
    ensures var data := SafeParseResponse(folder.response, rt).value;
            CheckCycle(s, rt, ping, folder).display
            == if Convertible(Field(data, "inSyncFiles")) && Convertible(Field(data, "globalFiles"))
               then Display(Synced, InSyncTooltip) else Display(Synced, AssumedTooltip)
  {
    var data := SafeParseResponse(folder.response, rt).value;
    DecisionDisplay(s, rt, ping, folder);
    UndefinedIsNeverLess(Field(data, "inSyncFiles"), rt);
    UndefinedIsNeverLess(Field(data, "globalFiles"), rt);
  }

  /** A body that is empty, unreadable or unparsable means synced, not error and not assumed. */
  lemma UndecodableBodyMeansSynced(s: Settings, rt: Runtime, ping: FetchOutcome, folder: FetchOutcome)
    requires ReachesDecision(s, rt, ping, folder)
    requires folder.response.body.ReadFailed? || folder.response.body.text == ""
             || rt.cleanAndParse(folder.response.body.text).None?
    ensures CheckCycle(s, rt, ping, folder).display == Display(Synced, InSyncTooltip)
  {
    var data := SafeParseResponse(folder.response, rt).value;
    assert data == NoContent || data == Unparsed(folder.response.body.text);
    MissingCountMeansSynced(s, rt, ping, folder);
  }

  /** The "(assumed)" verdict is given exactly when the folder-status body parses to something on which
      the decision throws: null (reading a count of null throws a TypeError) or a value with a count that
      `<` cannot convert. The decoder itself never throws on a successful status, and its `success: true`
      fallbacks have no counts. */
  lemma AssumedExactlyWhenDecisionThrows(s: Settings, rt: Runtime, ping: FetchOutcome, folder: FetchOutcome)
    ensures CheckCycle(s, rt, ping, folder).display.tooltip == AssumedTooltip
            <==> ReachesDecision(s, rt, ping, folder)
                 && folder.response.body.Text? && folder.response.body.text != ""
                 && rt.cleanAndParse(folder.response.body.text).Some?
                 && DecisionThrows(Returned(rt.cleanAndParse(folder.response.body.text).value))
  {
    var c := CheckCycle(s, rt, ping, folder);
    if ReachesDecision(s, rt, ping, folder) {
      DecisionDisplay(s, rt, ping, folder);
      SuccessNeverThrows(folder.response, rt);
      var data := SafeParseResponse(folder.response, rt).value;
      if data == NoContent || data == Unparsed(folder.response.body.text) {
        assert !DecisionThrows(Returned(data));
      }
    } else {
      assert IsErrorTooltip(c.display.tooltip);
      assert AssumedTooltip[0] == 'A';
    }
  }

  /** A count that is an object with its own `toString` field makes `<` throw: the verdict is assumed. */
  lemma UnconvertibleCountIsAssumed(s: Settings, rt: Runtime, ping: FetchOutcome, folder: FetchOutcome)
    requires ReachesDecision(s, rt, ping, folder)
    requires folder.response.body.Text? && folder.response.body.text != ""
    requires rt.cleanAndParse(folder.response.body.text)
             == Some(Obj(map["inSyncFiles" := Obj(map["toString" := Num(1.0)]), "globalFiles" := Num(5.0)]))
    ensures CheckCycle(s, rt, ping, folder).display == Display(Synced, AssumedTooltip)
  {
    var data := Obj(map["inSyncFiles" := Obj(map["toString" := Num(1.0)]), "globalFiles" := Num(5.0)]);
    DecisionDisplay(s, rt, ping, folder);
    assert !Convertible(Field(data, "inSyncFiles"));
  }

  /** The two folder-status examples: 5 of 5 files is synced; 2 of 5 is syncing, shown as "Syncing: 2/5 files". */
  lemma ExampleCounts(s: Settings, rt: Runtime, ping: FetchOutcome, folder: FetchOutcome, x: real)
    requires ReachesDecision(s, rt, ping, folder)
    requires folder.response.body.Text? && folder.response.body.text != ""
    requires rt.cleanAndParse(folder.response.body.text) == Some(Obj(map["inSyncFiles" := Num(x), "globalFiles" := Num(5.0)]))
    ensures x == 5.0 ==> CheckCycle(s, rt, ping, folder).display == Display(Synced, InSyncTooltip)
    ensures x == 2.0 ==> CheckCycle(s, rt, ping, folder).display == Display(Syncing, "Syncing: 2/5 files")
  {
    CountsDecide(s, rt, ping, folder, map["inSyncFiles" := Num(x), "globalFiles" := Num(5.0)], x, 5.0);
    ProgressExample(rt);
  }

  /** Two of five files in sync is shown as "Syncing: 2/5 files". */
  lemma ProgressExample(rt: Runtime)
    ensures ProgressTooltip(Num(2.0), Num(5.0), rt) == Returned("Syncing: 2/5 files")
  {
    assert ToJsString(Num(2.0), rt) == Returned("2") && ToJsString(Num(5.0), rt) == Returned("5");
    assert "Syncing: " + "2" + "/" + "5" + " files" == "Syncing: 2/5 files";
  }

  /** The connection test sends the headers the status check sends, to the version endpoint. */
  lemma ConnectionTestUsesCheckHeaders(s: Settings, rt: Runtime, version: FetchOutcome, ping: FetchOutcome, folder: FetchOutcome)
    requires s.syncthingUrl != "" && s.folderId != "" && AuthHeaders(s, rt).Returned?
    ensures var t := TestConnection(s, rt, version);
            var c := CheckCycle(s, rt, ping, folder);
            |t.sent| == 1 && |c.sent| >= 1 && t.sent[0].headers == c.sent[0].headers
            && t.sent[0].url == VersionUrl(s) && c.sent[0].url == PingUrl(s)
  {
  }
}

=== FILE: timers.dfy ===
/** The host's timer API as the plugin uses it: `setInterval`, `clearInterval`
    and `setTimeout`. Only the bookkeeping is modelled: which recurring timers
    are active, and which one-shot timers were scheduled. When a timer fires
    is not modelled. */
module Timers {

  /** Timer handles are positive integers, so they are truthy. */
  type TimerId = n: int | n >= 1 witness 1

  /** What a timer runs when it fires. */
  datatype Task = StartPolling | CheckSyncStatus

  /** A one-shot timer: the task and its delay in milliseconds. */
  datatype OneShot = OneShot(task: Task, delayMs: int)

  class TimerTable {
    /** The last handle handed out; the next one is fresh. */
    var lastId: nat
    /** The active recurring timers (all of which run `checkSyncStatus`), with their period in milliseconds. */
    ghost var intervals: map<TimerId, int>
    /** The one-shot timers scheduled, in the order they were scheduled. */
    ghost var oneShots: seq<OneShot>

    ghost predicate Valid()
      reads this
    {
      forall id :: id in intervals ==> id <= lastId
    }

    constructor ()
      ensures Valid() && lastId == 0 && intervals == map[] && oneShots == []
    {
      lastId := 0;
      intervals := map[];
      oneShots := [];
    }

    method SetInterval(periodMs: int) returns (id: TimerId)
      requires Valid()
      modifies this
      ensures Valid()
      ensures id == old(lastId) + 1 && id !in old(intervals)
      ensures lastId == id && intervals == old(intervals)[id := periodMs] && oneShots == old(oneShots)
    {
      lastId := lastId + 1;
      id := lastId;
      intervals := intervals[id := periodMs];
    }

    /** Clearing a handle that is not active does nothing. */
    method ClearInterval(id: TimerId)
      requires Valid()
      modifies this
      ensures Valid()
      ensures intervals == old(intervals) - {id} && lastId == old(lastId) && oneShots == old(oneShots)
    {
      intervals := intervals - {id};
    }

    method SetTimeout(task: Task, delayMs: int) returns (id: TimerId)
      requires Valid()
      modifies this
      ensures Valid()
      ensures id == old(lastId) + 1 && lastId == id
      ensures intervals == old(intervals) && oneShots == old(oneShots) + [OneShot(task, delayMs)]
    {
      lastId := lastId + 1;
      id := lastId;
      oneShots := oneShots + [OneShot(task, delayMs)];
    }
  }
}
